=== FILE: README.md ===
# Grappling system: grapple controller, rope guide and grappling point

A Dafny model of the grappling-hook traversal ability of a third-person
character. The player character (`AGrapplingSystemCharacter`) runs a small
state machine over three flags: grapple point focused, rotating towards the
grapple point, and grappling. Four events drive it:

- the per-frame **trace** finds a grappling point under the crosshair;
- the **start gate** (the grapple input) measures the leap and tests 11
  capsule samples along the path, and vetoes the start if any is blocked;
- the **animation notify** of the throw montage starts the leap;
- the per-frame **tick** runs trace, then rotation, then the leap step. The
  leap step advances a clock, moves the character along a curve-shaped arc
  and ends the leap when the clock reaches the planned duration.

Two satellites go with it:

- the **rope guide** (`ARopeGuide`) carries the free end of the rope from the
  character to the point in 0.5 s and then destroys itself;
- the **grappling point** (`AGrapplingPoint`) latches a focus flag.

Files and modules:

- `geometry.dfy` (`Geometry`): vectors and rotators over reals, the engine's
  `VLerp` and `FClamp`.
- `engine.dfy` (`Engine`): the engine services the controller consumes,
  bundled in `Env` as values and uninterpreted functions. These are the
  actor location, rotation and up axis, the vertical-arc curve, vector
  distance and unit direction, the capsule sweep, screen-centre deprojection,
  the sweep on the interactable channel, scene component locations, and
  `MakeRotFromX`/`RInterpTo`.
- `grappling_point.dfy` (`GrapplingPoint`): the anchor, `EnableFocused`, and
  runs of point events.
- `rope_guide.dfy` (`RopeGuide`): constructor defaults, `SetTarget`,
  `UpdatePosition`, and arrival after finitely many frames.
- `grapple_controller.dfy` (`GrappleController`): the character state, the
  world (points and spawned guides), and one pure function per event.
- `grapple_properties.dfy` (`GrappleProperties`): lemmas over several
  events, and runs of world events.

Times and positions are `real`. Each event is a pure function from a world
to a world. Side effects the engine performs are recorded as data in the
state: rope spawned, cable released, montage played, move requested.

Notable behaviours of the code:

- A vetoed start still changes state: start location, distance and duration
  are overwritten before the obstacle test (`StartGrappling`, `VetoStillMeasures`).
- Right after the notify the character is both grappling and rotating. The
  notify raises grappling and leaves rotating raised until the next leap step
  clears it. After every full tick the two flags are never both raised
  (`Tick`, `GateNotifyTickCycle`).
- The notify is unconditional; it does not check that a gate succeeded (`NotifyWithoutGate`).
- A zero leap duration is not guarded in the code. The code divides by zero.
  In single-precision arithmetic that yields +infinity or NaN. The engine's
  clamp, `x < 0 ? 0 : (x < 1 ? x : 1)`, maps both to 1 when the elapsed time
  is non-negative, and maps -infinity to 0. `Progress` models that outcome.
  A zero-length leap therefore ends on its first frame
  (`ZeroDistanceLeapEndsInOneFrame`).
- The trace never clears a grappling point's own focus flag when the
  crosshair leaves it. Only the character's flag is lowered
  (`LineTraceGrapplingPoint`, `PointFocusNeverCleared`).

## Model

The predicates and helper functions `CrosshairHit`, `CanStart`,
`TestLocation`, `PathBlocked` and `LeapLocation` (in `GrappleController`)
and `Arc` (in `GrappleProperties`) are definitions. They name the crosshair
sweep, the gate's guard, one obstacle sample, the any-sample-blocked test and
the leap's arc point. The contracts in the table below are written in their
terms.

| member | source | states |
|---|---|---|
| Geometry.Lerp | Source/GrapplingSystem/RopeGuide.cpp:41 | interpolation starts at `a` for 0, ends at `b` for 1, and moves along `b - a` in proportion to `t` |
| Geometry.Clamp | Source/GrapplingSystem/RopeGuide.cpp:40 | result lies in `[lo, hi]`, keeps a value inside it, maps values below/above to the nearer end |
| GrapplingPoint.Spawn | Source/GrapplingSystem/GrapplingPoint.h:50 | a new point is not focused and sits where it was placed |
| GrapplingPoint.EnableFocused | Source/GrapplingSystem/GrapplingPoint.cpp:38-41 | the focus flag becomes true and the location is unchanged |
| GrapplingPoint.EnableFocusedIdempotent | Source/GrapplingSystem/GrapplingPoint.cpp:38-41 | focusing twice equals focusing once |
| GrapplingPoint.FocusLatches | Source/GrapplingSystem/GrapplingPoint.cpp:33-41 | no sequence of ticks and focus calls clears the flag or moves the point |
| GrapplingPoint.FocusedIffFocusEvent | Source/GrapplingSystem/GrapplingPoint.cpp:33-41 | after a run the point is focused iff it was already, or some event was a focus call |
| RopeGuide.Spawn | Source/GrapplingSystem/RopeGuide.cpp:20-22 | a new guide has elapsed 0, is not flying, is alive and valid |
| RopeGuide.SetTarget | Source/GrapplingSystem/RopeGuide.cpp:25-32 | records start and end, starts flying with elapsed 0, does not move the guide |
| RopeGuide.UpdatePosition | Source/GrapplingSystem/RopeGuide.cpp:34-50 | no-op unless flying; elapsed becomes Clamp(elapsed + dt, 0, TargetTime), so it stays in `[0, TargetTime]` and never decreases for dt >= 0; position is the lerp at fraction elapsed/TargetTime in [0,1]; it stops flying exactly when elapsed reaches TargetTime, and then sits at the end and is destroyed |
| RopeGuide.StoppedStaysStopped | Source/GrapplingSystem/RopeGuide.cpp:36 | after it stops, no number of frames changes the guide |
| RopeGuide.ArrivesAfter | Source/GrapplingSystem/RopeGuide.cpp:39-49 | with fixed dt > 0, once n·dt covers the remaining time the guide has stopped, is destroyed and sits at the end |
| RopeGuide.EventuallyArrives | Source/GrapplingSystem/RopeGuide.cpp:39-49 | with fixed dt > 0 some finite number of frames brings the guide to its end, stopped |
| GrappleController.Initial | Source/GrapplingSystem/GrapplingSystemCharacter.cpp:22-59 | a constructed character has all three flags false, no cable, and no spawns or plays |
| GrappleController.TraceTarget | Source/GrapplingSystem/GrapplingSystemCharacter.cpp:323-338 | the point found by the crosshair sweep is one of the world's points |
| GrappleController.LineTraceGrapplingPoint | Source/GrapplingSystem/GrapplingSystemCharacter.cpp:298-353 | while grappling or rotating: nothing changes and the result is false. Otherwise it succeeds iff a point is hit. On success that point is focused and the end is its location plus 100 up; on failure focused is false and points and end are untouched. No point's flag is ever cleared. Only focused, end and scene point change |
| GrappleController.GateSamples | Source/GrapplingSystem/GrapplingSystemCharacter.cpp:184-196 | exactly `TestCount + 1` = 11 test locations |
| GrappleController.ScanPath | Source/GrapplingSystem/GrapplingSystemCharacter.cpp:182-204 | the loop sweeps every sample in order with no early exit, and its flag is true iff some sample is blocked |
| GrappleController.Rope | Source/GrapplingSystem/GrapplingSystemCharacter.cpp:263-280 | one guide is appended, flying from the current location to the focused scene component's location as the engine reports it when the rope is spawned; the cable is attached with half the distance; spawn count +1 |
| GrappleController.StartGrappling | Source/GrapplingSystem/GrapplingSystemCharacter.cpp:168-216 | complete no-op unless focused, not grappling and not rotating. Otherwise start, distance and duration = distance/1500 are recorded. A blocked sample vetoes: no rotation, rope, guide or montage. A clear path spawns one rope, plays one montage and starts rotating. Grappling is never raised, and the focused scene component (where the next guide flies) is kept |
| GrappleController.AlignedRotation | Source/GrapplingSystem/GrapplingSystemCharacter.cpp:223-227 | pitch and roll of the new rotation are zero |
| GrappleController.RotateTowardsGrapplingPoint | Source/GrapplingSystem/GrapplingSystemCharacter.cpp:218-229 | no-op unless rotating. Only the rotation changes: the interpolated yaw, with zero pitch and roll |
| GrappleController.AnimNotifyGrappleLeapStart | Source/GrapplingSystem/GrapplingSystemCharacter.cpp:282-296 | in any state: start := current location, grappling := true, focused := false, elapsed := 0. Rotating and all other fields unchanged |
| GrappleController.Progress | Source/GrapplingSystem/GrapplingSystemCharacter.cpp:242 | the leap fraction lies in [0,1]. It equals elapsed/duration inside the leap and 1 at or past the end, including a zero duration |
| GrappleController.Release | Source/GrapplingSystem/GrapplingSystemCharacter.cpp:259 | an attached cable becomes released with its length; other states are unchanged |
| GrappleController.Grapple | Source/GrapplingSystem/GrapplingSystemCharacter.cpp:231-261 | no-op unless grappling. Otherwise it clears rotating, adds dt to elapsed (non-decreasing for dt >= 0) and requests a move to the arc point at a fraction in [0,1]. The leap ends iff elapsed reaches duration, and then the cable is released once. Nothing else changes |
| GrappleController.Tick | Source/GrapplingSystem/GrapplingSystemCharacter.cpp:61-73 | never both grappling and rotating afterwards. An idle frame is exactly the trace, after reading the actor rotation, and never starts rotating. A busy frame writes only rotation, rotating, grappling, elapsed, the move request and the cable; while the leap continues the cable is untouched. An idle frame leaves focused true iff a point is under the crosshair. While busy, focus and points are untouched. A leaping frame advances the clock by dt, requests the leap move, and ends the leap exactly when the clock reaches the duration, releasing the cable. A frame spawns no rope and plays no montage. A frame never starts a leap. The frame reads the actor rotation from the engine; when rotating, the result is the aligned rotation from it. A character rotating before its notify keeps rotating |
| GrappleController.TickGuides | Source/GrapplingSystem/RopeGuide.cpp:59-63 | each flying guide advances its clock to Clamp(elapsed + dt, 0, 0.5), moves to the matching lerp point, and stops exactly when its clock reaches 0.5. No guide's start or end changes. Every guide keeps validity. A stopped guide is unchanged. A guide that stops this frame is destroyed at its end |
| GrappleProperties.TraceIdempotent | Source/GrapplingSystem/GrapplingSystemCharacter.cpp:298-353 | tracing twice against the same engine view equals tracing once |
| GrappleProperties.SampleBelowArc | Source/GrapplingSystem/GrapplingSystemCharacter.cpp:193-196 | below its arc lift, sample i lies at start + direction·(i·distance/10) |
| GrappleProperties.FirstSampleAtStart | Source/GrapplingSystem/GrapplingSystemCharacter.cpp:193-196 | sample 0 is the start lifted by curve(0) |
| GrappleProperties.LastSampleAtFullDistance | Source/GrapplingSystem/GrapplingSystemCharacter.cpp:185-196 | sample 10 is start + direction·distance lifted by curve(1) |
| GrappleProperties.GateSampleSpacing | Source/GrapplingSystem/GrapplingSystemCharacter.cpp:187-196 | below the arc, consecutive samples are distance/10 apart along the direction |
| GrappleProperties.LastSampleAboveEnd | Source/GrapplingSystem/GrapplingSystemCharacter.cpp:185-196 | when direction·distance = end − start, the last sample lies exactly above the end |
| GrappleProperties.VetoStillMeasures | Source/GrapplingSystem/GrapplingSystemCharacter.cpp:178-207 | a vetoed gate does not rotate or spawn a rope, but has overwritten the start location |
| GrappleProperties.LeapScenario | Source/GrapplingSystem/GrapplingSystemCharacter.cpp:178-260 | a clear 1000-unit gate plans 2/3 s and a 500-unit cable; after the notify one leap step of 2/3 s ends the leap, releases that cable and moves to the end lifted by curve(1) |
| GrappleProperties.GateNotifyTickCycle | Source/GrapplingSystem/GrapplingSystemCharacter.cpp:61-73 | clear gate → rotating only. Notify → grappling and rotating. Next tick → trace skipped, rotated once more from the engine's current rotation, no longer rotating, elapsed = dt, exactly one rope spawned |
| GrappleProperties.NotifyWithoutGate | Source/GrapplingSystem/GrapplingSystemCharacter.cpp:282-296 | on a fresh character the notify starts a leap with no rope spawned; its end finds no attached cable |
| GrappleProperties.IdleGrapplesChangeNothing | Source/GrapplingSystem/GrapplingSystemCharacter.cpp:235 | leap steps outside a leap change nothing |
| GrappleProperties.CompletionLandsAtEnd | Source/GrapplingSystem/GrapplingSystemCharacter.cpp:241-260 | the final leap step ends the leap with a move exactly to the end lifted by curve(1) |
| GrappleProperties.ZeroDistanceLeapEndsInOneFrame | Source/GrapplingSystem/GrapplingSystemCharacter.cpp:178-260 | a zero-distance gate plans duration 0, and the first leap step after the notify ends the leap at the end and releases the cable |
| GrappleProperties.LeapEndsAfter | Source/GrapplingSystem/GrapplingSystemCharacter.cpp:241-260 | with fixed dt > 0, once n·dt covers the remaining duration the leap has ended, not rotating, cable released exactly once |
| GrappleProperties.ReleasedAtMostOnce | Source/GrapplingSystem/GrapplingSystemCharacter.cpp:254-260 | any number of leap steps releases the cable at most once |
| GrappleProperties.LeapClockMonotone | Source/GrapplingSystem/GrapplingSystemCharacter.cpp:241 | with dt >= 0 the leap clock never decreases over any number of steps |
| GrappleProperties.PointFocusNeverCleared | Source/GrapplingSystem/GrapplingSystemCharacter.cpp:332-352 | no run of world events removes a point or clears its focus flag |
| GrappleProperties.GuidesStayValid | Source/GrapplingSystem/RopeGuide.cpp:25-49 | across any run every spawned guide keeps elapsed in `[0, 0.5]`, and none flies after destroying itself |
| GrappleProperties.SpawnsMatchMontages | Source/GrapplingSystem/GrapplingSystemCharacter.cpp:207-215 | across any run, rope spawns and throw-montage plays grow by the same amount |

## Left out

- Camera boom, input bindings, movement, turn and look-up rates, touch and VR handlers: engine plumbing with no grappling state.
- The rotator math of `RotateTowardsGrapplingPoint` (`MakeRotFromX`, `RInterpTo`) is uninterpreted. The actor's current rotation is read from `Env` at the start of each frame, so turns by the movement component between frames are taken as given. The model states only that the yaw comes from it, pitch and roll become zero, and no flag changes.
- Collision sweeps, screen deprojection, curve evaluation, `GetActorLocation`/`GetActorUpVector`, `GetComponentLocation`, vector distance and unit direction are engine services. They are fields of `Env` with no properties assumed. The capsule size (42 × 96) and the collision channels are the sweep's business.
- `MoveComponentTo` is recorded as the last move request. The latent 0.1 s engine-side interpolation and the character's actual location are not modelled; the next frame's location comes from `Env`.
- Montage playback is a counter; `Montage_JumpToSection` is not modelled. The notify trampoline (ThrowMovementAnimNotify.cpp) is only where the notify event comes from.
- Cable and guide spawning, attachment, registration and actor destruction are abstract: a cable handle, counters, and an `alive` flag per guide.
- The rope guide's `Direction` field: it is computed by `SetTarget` but never read.
- `DrawDebugCapsule`, the game mode, Build.cs and Target.cs files.
- Single-precision floating point. Everything is over reals. The one IEEE effect that changes behaviour, division by a zero duration, is modelled explicitly in `Progress`. A negative duration (which needs a negative distance from the engine) has no IEEE special case and uses the real quotient.
- `GrapplingSpeed` is fixed at its constructor default of 1500. An override in the character's blueprint defaults is not modelled.
- GrappleController.Grapple: at the end of a leap with no cable ever spawned (reachable only through the unconditional notify), the C++ code dereferences a null cable pointer. The model leaves the handle as `NoCable` and still counts the release.
- GrapplingPoint.FocusLatches: holds of the C++ code only. The focus flag is writable from blueprints, and the point's tick runs the engine's tick, which includes any blueprint Event Tick. Blueprint writes that might reset the flag are not modelled.
- GrappleProperties.PointFocusNeverCleared: holds of the C++ code only, for the same reason as `FocusLatches`. Blueprint writes to the focus flag are not modelled.
- GrapplingPoint.FocusedIffFocusEvent: holds of the C++ code only. It assumes `EnableFocused` is the only writer of the focus flag; a blueprint that sets the flag breaks its "only if" direction.
- GrappleController.TraceTarget: a hit on a grappling point counts only if its id is a key of the world's point map. The game code focuses any grappling point actor the sweep hits. The model's world is assumed to list every grappling point in the level.
- GrappleController.Rope: grappling points never move in the model. A point's location is fixed when it is placed, and the trace reads it from the world's point map. The focused scene component is kept as a reference and its location is read when the rope is spawned. Component 0 stands for the null component held before the first successful trace; the gate cannot reach the rope spawn before one.
- The relative tick order of the character and the rope guides within a frame is the engine's choice. Character frames and guide frames are separate world events.

=== FILE: engine.dfy ===
/** The engine services the grappling logic consumes, as plain values and
    uninterpreted functions: the character's location and up axis, the
    vertical-arc curve asset, vector distance and direction, the capsule
    sweep used by the start gate, the screen-centre deprojection, the sweep on
    the interactable channel, and the rotator helpers. */
module Engine {
  import opened Geometry

  datatype Option<T> = None | Some(value: T)

  /** Identifies a grappling point actor placed in the level. */
  type PointId = nat

  /** Identifies a scene component; 0 stands for the null component. */
  type ComponentId = nat

  /** World-space ray obtained by deprojecting the screen centre. */
  datatype Ray = Ray(origin: Vec3, direction: Vec3)

  /** What a sweep hit: a grappling point, or some other actor. */
  datatype HitActor = OtherActor | PointActor(id: PointId)

  /** The result of a single sweep: whether it was a blocking hit, the
      actor hit and the component hit. */
  datatype SweepHit = SweepHit(blocking: bool, actor: HitActor, component: ComponentId)

  /** One frame's view of the engine. */
  datatype Env = Env(
    location: Vec3,                              // GetActorLocation
    up: Vec3,                                    // GetActorUpVector
    rotation: Rotator,                           // GetActorRotation when the frame begins
    curve: real -> real,                         // vertical-arc curve asset
    distance: (Vec3, Vec3) -> real,              // Vector_Distance
    direction: (Vec3, Vec3) -> Vec3,             // GetDirectionUnitVector
    capsuleBlocked: Vec3 -> bool,                // capsule sweep on the visibility channel
    deproject: Option<Ray>,                      // DeprojectScreenToWorld of the crosshair
    sweep: (Vec3, Vec3) -> SweepHit,             // box sweep on the interactable channel
    componentLocation: ComponentId -> Vec3,      // GetComponentLocation
    makeRotFromX: Vec3 -> Rotator,               // MakeRotFromX
    rinterpTo: (Rotator, Rotator, real, real) -> Rotator  // RInterpTo(current, target, dt, speed)
  )
}

=== FILE: geometry.dfy ===
/** Vectors, rotators and the two scalar helpers the grappling code relies on
    (linear interpolation and clamping), over mathematical reals. The C++ code
    uses single-precision floats; rounding is not modelled. */
module Geometry {

  datatype Vec3 = Vec3(x: real, y: real, z: real)

  /** Engine rotator: pitch, yaw and roll in degrees. */
  datatype Rotator = Rotator(pitch: real, yaw: real, roll: real)

  const Origin: Vec3 := Vec3(0.0, 0.0, 0.0)

  /** The world up axis (0, 0, 1). */
  const UpVector: Vec3 := Vec3(0.0, 0.0, 1.0)

  function Add(a: Vec3, b: Vec3): Vec3 {
    Vec3(a.x + b.x, a.y + b.y, a.z + b.z)
  }

  function Sub(a: Vec3, b: Vec3): Vec3 {
    Vec3(a.x - b.x, a.y - b.y, a.z - b.z)
  }

  function Scale(v: Vec3, k: real): Vec3 {
    Vec3(v.x * k, v.y * k, v.z * k)
  }

  /** Vector linear interpolation `a + t * (b - a)`: it starts at `a`, ends
      at `b`, and moves along `b - a` in proportion to `t`. */
  function Lerp(a: Vec3, b: Vec3, t: real): (r: Vec3)
    ensures t == 0.0 ==> r == a
    ensures t == 1.0 ==> r == b
    ensures Sub(r, a) == Scale(Sub(b, a), t)
  {
    Add(a, Scale(Sub(b, a), t))
  }

  /** The engine's clamp, `v < lo ? lo : (v < hi ? v : hi)`: inside the
      interval the value is kept, outside it is moved to the nearer end. */
  function Clamp(v: real, lo: real, hi: real): (r: real)
    ensures lo <= hi ==> lo <= r <= hi
    ensures lo <= v <= hi ==> r == v
    ensures lo <= hi && v < lo ==> r == lo
    ensures lo <= hi && hi < v ==> r == hi
  {
    if v < lo then lo else if v < hi then v else hi
  }
}

=== FILE: grapple_controller.dfy ===
/** The grapple controller owned by the player character: a state machine
    over three flags (grapple point focused, rotating towards it, grappling)
    driven by four events — the per-frame target trace, the start gate, the
    animation notify that begins the leap, and the per-frame tick that runs
    trace, rotation and leap in that order. The world around the character
    holds the grappling points it may focus and the rope guides it spawned. */
module GrappleController {
  import opened Geometry
  import opened Engine
  import GP = GrapplingPoint
  import RG = RopeGuide

  /** Height added above a grappling point to get the leap's end. */
  const GrappleEndVerticalOffset: real := 100.0
  /** Leap speed in units per second (the constructor's default). */
  const GrapplingSpeed: real := 1500.0
  /** The start gate tests `TestCount + 1` evenly spaced samples. */
  const TestCount: nat := 10
  /** Scale applied to the vertical-arc curve, in units. */
  const ArcHeight: real := 300.0
  /** Length of the crosshair sweep. */
  const TraceRange: real := 50000.0
  /** Interpolation speed passed to the rotator interpolation. */
  const RotationInterpSpeed: real := 10.0

  /** The cable component that acts as the rope: never spawned yet, attached
      with the given length, or released by `DestroyComponent`. */
  datatype Cable = NoCable | Attached(length: real) | Released(length: real)

  /** A move request for the character's capsule. */
  datatype Move = Move(location: Vec3, rotation: Rotator)

  /** The character's grappling state. `rotation` is the actor rotation as
      the controller last read it from the engine or set it; `ropesSpawned`,
      `ropeDestroys` and `montagePlays` count the rope spawns, the cable
      destructions and the throw-montage plays; `lastMove` is the last move
      request issued. */
  datatype Character = Character(
    focused: bool,
    grappling: bool,
    rotating: bool,
    startLoc: Vec3,
    endLoc: Vec3,
    scenePoint: ComponentId,
    totalDistance: real,
    elapsed: real,
    totalDuration: real,
    rotation: Rotator,
    cable: Cable,
    ropesSpawned: nat,
    ropeDestroys: nat,
    montagePlays: nat,
    lastMove: Option<Move>)

  datatype World = World(ch: Character, points: map<PointId, GP.Point>, guides: seq<RG.Guide>)

  /** A character as constructed: engine objects start zeroed, so every flag
      is false, every vector is the origin and every scalar is 0. */
  function Initial(points: map<PointId, GP.Point>, rotation: Rotator): (w: World)
    ensures !w.ch.focused && !w.ch.grappling && !w.ch.rotating
    ensures w.ch.cable == NoCable && w.ch.ropesSpawned == 0 && w.ch.ropeDestroys == 0 && w.ch.montagePlays == 0
    ensures w.points == points && w.guides == []
  {
    World(Character(false, false, false, Origin, Origin, 0, 0.0, 0.0, 0.0, rotation, NoCable, 0, 0, 0, None),
          points, [])
  }

  // ---------------------------------------------------------------------
  // Target acquisition

  /** The hit of the crosshair sweep: deproject the screen centre and sweep
      a tiny box along the ray out to `TraceRange`. */
  function CrosshairHit(env: Env): Option<SweepHit> {
    match env.deproject
    case None => None
    case Some(ray) => Some(env.sweep(ray.origin, Add(ray.origin, Scale(ray.direction, TraceRange))))
  }

  /** The grappling point under the crosshair, if the sweep's blocking hit
      is one (the cast to a grappling point fails for any other actor). */
  function TraceTarget(w: World, env: Env): (t: Option<PointId>)
    ensures t.Some? ==> t.value in w.points
  {
    match CrosshairHit(env)
    case None => None
    case Some(hit) =>
      if hit.blocking && hit.actor.PointActor? && hit.actor.id in w.points then Some(hit.actor.id) else None
  }

  datatype TraceOutcome = TraceOutcome(world: World, found: bool)

  /** Looks for a grappling point under the crosshair. While a leap or the
      rotation before it is under way it does nothing and reports failure.
      Otherwise a hit point is focused, the leap's end is set just above it
      and the focused flag is raised; anything else lowers the flag. Points
      that lose the crosshair keep their own focus flag. */
  function LineTraceGrapplingPoint(w: World, env: Env): (r: TraceOutcome)
    ensures w.ch.grappling || w.ch.rotating ==> r.world == w && !r.found
    ensures !(w.ch.grappling || w.ch.rotating) ==> (r.found <==> TraceTarget(w, env).Some?)
    ensures !(w.ch.grappling || w.ch.rotating) ==> r.world.ch.focused == r.found
    ensures r.found ==>
              var id := TraceTarget(w, env).value;
              && r.world.points == w.points[id := GP.EnableFocused(w.points[id])]
              && r.world.ch.endLoc == Add(w.points[id].location, Scale(UpVector, GrappleEndVerticalOffset))
              && r.world.ch.scenePoint == CrosshairHit(env).value.component
    ensures !r.found ==> r.world.points == w.points && r.world.ch.endLoc == w.ch.endLoc && r.world.ch.scenePoint == w.ch.scenePoint
    ensures r.world.ch.(focused := w.ch.focused, endLoc := w.ch.endLoc, scenePoint := w.ch.scenePoint) == w.ch
    ensures r.world.guides == w.guides && r.world.points.Keys == w.points.Keys
    ensures forall id :: id in w.points ==>
              r.world.points[id].location == w.points[id].location && (w.points[id].focused ==> r.world.points[id].focused)
  {
    if w.ch.grappling || w.ch.rotating then TraceOutcome(w, false)
    else
      match TraceTarget(w, env)
      case None => TraceOutcome(w.(ch := w.ch.(focused := false)), false)
      case Some(id) =>
        var p := GP.EnableFocused(w.points[id]);
        var ch := w.ch.(focused := true,
                        endLoc := Add(p.location, Scale(UpVector, GrappleEndVerticalOffset)),
                        scenePoint := CrosshairHit(env).value.component);
        TraceOutcome(World(ch, w.points[id := p], w.guides), true)
  }

  // ---------------------------------------------------------------------
  // Start gate

  /** The gate only proceeds when a point is focused and the character is
      neither grappling nor rotating. */
  predicate CanStart(c: Character) {
    c.focused && !c.grappling && !c.rotating
  }

  /** The `i`-th obstacle test location: `i` steps of `offset` along `dir`
      from `start`, raised by the curve at `i / TestCount` times `ArcHeight`. */
  function TestLocation(start: Vec3, dir: Vec3, offset: real, up: Vec3, curve: real -> real, i: nat): Vec3 {
    Add(Add(Scale(Scale(dir, i as real), offset), start),
        Scale(up, curve((i as real) / (TestCount as real)) * ArcHeight))
  }

  /** The `TestCount + 1` test locations of a leap from `start` to `end`. */
  function GateSamples(start: Vec3, end: Vec3, env: Env): (s: seq<Vec3>)
    ensures |s| == TestCount + 1
  {
    var dist := env.distance(start, end);
    var dir := env.direction(start, end);
    seq(TestCount + 1, i requires 0 <= i => TestLocation(start, dir, dist / (TestCount as real), env.up, env.curve, i))
  }

  predicate AnyBlocked(samples: seq<Vec3>, blocked: Vec3 -> bool) {
    exists i :: 0 <= i < |samples| && blocked(samples[i])
  }

  /** Whether some test location of a leap from the current location to the
      recorded end reports a blocking capsule hit. */
  predicate PathBlocked(w: World, env: Env) {
    AnyBlocked(GateSamples(env.location, w.ch.endLoc, env), env.capsuleBlocked)
  }

  /** The obstacle loop as the C++ code runs it: every sample from 0 to
      `TestCount` inclusive is swept, in order, with no early exit, and a
      single flag remembers whether any of them was blocked. */
  method ScanPath(start: Vec3, end: Vec3, env: Env) returns (foundAnyObstacle: bool, tested: seq<Vec3>)
    ensures foundAnyObstacle <==> AnyBlocked(GateSamples(start, end, env), env.capsuleBlocked)
    ensures tested == GateSamples(start, end, env)
  {
    var dist := env.distance(start, end);
    var dir := env.direction(start, end);
    var offset := dist / (TestCount as real);
    ghost var samples := GateSamples(start, end, env);
    foundAnyObstacle := false;
    tested := [];
    var i: nat := 0;
    while i <= TestCount
      invariant i <= TestCount + 1
      invariant tested == samples[..i]
      invariant foundAnyObstacle <==> exists j :: 0 <= j < i && env.capsuleBlocked(samples[j])
    {
      var testLocation := TestLocation(start, dir, offset, env.up, env.curve, i);
      assert testLocation == samples[i];
      var hitObstacle := env.capsuleBlocked(testLocation);
      if hitObstacle {
        foundAnyObstacle := true;
      }
      tested := tested + [testLocation];
      i := i + 1;
    }
  }

  /** Spawns the rope: a guide at the character's location, sent towards
      the focused point's component where that component is now, and a cable attached between hand and
      guide with half the start-to-end distance as its length. */
  function Rope(w: World, env: Env): (r: World)
    ensures r.ch == w.ch.(cable := Attached(env.distance(w.ch.startLoc, w.ch.endLoc) / 2.0), ropesSpawned := w.ch.ropesSpawned + 1)
    ensures |r.guides| == |w.guides| + 1 && r.guides[..|w.guides|] == w.guides
    ensures var g := r.guides[|w.guides|];
            g.flying && g.start == env.location && g.end == env.componentLocation(w.ch.scenePoint) && g.position == env.location && RG.Valid(g)
    ensures r.points == w.points
  {
    var guide := RG.SetTarget(RG.Spawn(env.location), env.location, env.componentLocation(w.ch.scenePoint));
    var ch := w.ch.(cable := Attached(env.distance(w.ch.startLoc, w.ch.endLoc) / 2.0),
                    ropesSpawned := w.ch.ropesSpawned + 1);
    World(ch, w.points, w.guides + [guide])
  }

  /** The start gate. Unless `CanStart` holds it changes nothing at all.
      Otherwise it records the start location, distance and duration, then
      tests the path: if any sample is blocked it stops there (the measured
      values stay overwritten); if none is, it spawns the rope once, starts
      rotating and plays the throw montage. It never starts the leap itself. */
  function StartGrappling(w: World, env: Env): (r: World)
    ensures !CanStart(w.ch) ==> r == w
    ensures CanStart(w.ch) ==>
              && r.ch.startLoc == env.location
              && r.ch.totalDistance == env.distance(env.location, w.ch.endLoc)
              && r.ch.totalDuration * GrapplingSpeed == r.ch.totalDistance
    ensures CanStart(w.ch) && PathBlocked(w, env) ==>
              && !r.ch.rotating && r.ch.cable == w.ch.cable && r.ch.ropesSpawned == w.ch.ropesSpawned
              && r.ch.montagePlays == w.ch.montagePlays && r.guides == w.guides
    ensures CanStart(w.ch) && !PathBlocked(w, env) ==>
              && r.ch.rotating
              && r.ch.ropesSpawned == w.ch.ropesSpawned + 1
              && r.ch.montagePlays == w.ch.montagePlays + 1
              && r.ch.cable == Attached(r.ch.totalDistance / 2.0)
              && |r.guides| == |w.guides| + 1 && r.guides[..|w.guides|] == w.guides
              && r.guides[|w.guides|].flying && r.guides[|w.guides|].end == env.componentLocation(w.ch.scenePoint)
    ensures r.ch.grappling == w.ch.grappling && r.ch.focused == w.ch.focused
    ensures r.ch.endLoc == w.ch.endLoc && r.ch.elapsed == w.ch.elapsed && r.ch.rotation == w.ch.rotation
    ensures r.ch.ropeDestroys == w.ch.ropeDestroys && r.ch.lastMove == w.ch.lastMove
    ensures r.ch.scenePoint == w.ch.scenePoint
    ensures r.points == w.points
  {
    if !CanStart(w.ch) then w
    else
      var start := env.location;
      var dist := env.distance(start, w.ch.endLoc);
      var measured := w.(ch := w.ch.(startLoc := start, totalDistance := dist, totalDuration := dist / GrapplingSpeed));
      if PathBlocked(w, env) then measured
      else
        var roped := Rope(measured, env);
        roped.(ch := roped.ch.(rotating := true, montagePlays := roped.ch.montagePlays + 1))
  }

  // ---------------------------------------------------------------------
  // Rotation, leap start and leap

  /** The yaw the character turns towards this frame; pitch and roll are
      forced to zero so the character never tilts. */
  function AlignedRotation(c: Character, env: Env, dt: real): (rot: Rotator)
    ensures rot.pitch == 0.0 && rot.roll == 0.0
  {
    var target := env.makeRotFromX(env.direction(c.startLoc, c.endLoc));
    var interp := env.rinterpTo(c.rotation, target, dt, RotationInterpSpeed);
    interp.(pitch := 0.0, roll := 0.0)
  }

  /** Turns the character while it is rotating towards the point; changes
      nothing but the rotation, and nothing at all otherwise. */
  function RotateTowardsGrapplingPoint(w: World, env: Env, dt: real): (r: World)
    ensures !w.ch.rotating ==> r == w
    ensures r == w.(ch := w.ch.(rotation := r.ch.rotation))
    ensures w.ch.rotating ==> r.ch.rotation.pitch == 0.0 && r.ch.rotation.roll == 0.0
    ensures w.ch.rotating ==>
              r.ch.rotation.yaw == env.rinterpTo(w.ch.rotation, env.makeRotFromX(env.direction(w.ch.startLoc, w.ch.endLoc)), dt, RotationInterpSpeed).yaw
  {
    if !w.ch.rotating then w
    else w.(ch := w.ch.(rotation := AlignedRotation(w.ch, env, dt)))
  }

  /** Animation notify that begins the leap. It applies whatever the state:
      the start moves to the current location, grappling starts, the focus
      flag drops and the clock restarts. The rotating flag is left as it
      was, so right after a successful gate both flags are raised. */
  function AnimNotifyGrappleLeapStart(w: World, env: Env): (r: World)
    ensures r.ch.grappling && !r.ch.focused && r.ch.elapsed == 0.0 && r.ch.startLoc == env.location
    ensures r.ch.rotating == w.ch.rotating
    ensures r.ch.(grappling := w.ch.grappling, focused := w.ch.focused, elapsed := w.ch.elapsed, startLoc := w.ch.startLoc) == w.ch
    ensures r.points == w.points && r.guides == w.guides
  {
    w.(ch := w.ch.(startLoc := env.location, grappling := true, focused := false, elapsed := 0.0))
  }

  /** The leap's progress fraction: elapsed over duration clamped to [0, 1].
      For a zero duration the C++ code divides by zero; with the engine's clamp
      `x < 0 ? 0 : (x < 1 ? x : 1)` the resulting infinity or NaN lands on 1
      for a non-negative elapsed time and on 0 for a negative one. */
  function Progress(elapsed: real, duration: real): (t: real)
    ensures 0.0 <= t <= 1.0
    ensures duration > 0.0 && 0.0 <= elapsed <= duration ==> t == elapsed / duration
    ensures duration > 0.0 && elapsed >= duration ==> t == 1.0
    ensures duration == 0.0 && elapsed >= 0.0 ==> t == 1.0
  {
    if duration == 0.0 then (if elapsed < 0.0 then 0.0 else 1.0)
    else Clamp(elapsed / duration, 0.0, 1.0)
  }

  /** Where the leap puts the character at progress `t`: on the straight line
      from start to end, raised by the curve at `t` times `ArcHeight`. */
  function LeapLocation(c: Character, env: Env, t: real): Vec3 {
    Add(Lerp(c.startLoc, c.endLoc, t), Scale(env.up, env.curve(t) * ArcHeight))
  }

  /** Releases the cable component; a cable that is not attached stays as it is. */
  function Release(c: Cable): (r: Cable)
    ensures c.Attached? ==> r == Released(c.length)
    ensures !c.Attached? ==> r == c
  {
    if c.Attached? then Released(c.length) else c
  }

  /** One frame of the leap. Outside a leap nothing changes. During one the
      rotating flag is cleared, the clock advances by `dt`, a move request
      towards the leap location at the clamped progress is issued, and once
      the clock reaches the duration the leap ends and the cable is released. */
  function Grapple(w: World, env: Env, dt: real): (r: World)
    ensures !w.ch.grappling ==> r == w
    ensures w.ch.grappling ==> !r.ch.rotating && r.ch.elapsed == w.ch.elapsed + dt
    ensures w.ch.grappling ==>
              var t := Progress(w.ch.elapsed + dt, w.ch.totalDuration);
              0.0 <= t <= 1.0 && r.ch.lastMove == Some(Move(LeapLocation(w.ch, env, t), w.ch.rotation))
    ensures w.ch.grappling ==> (r.ch.grappling <==> w.ch.elapsed + dt < w.ch.totalDuration)
    ensures w.ch.grappling && !r.ch.grappling ==> r.ch.ropeDestroys == w.ch.ropeDestroys + 1 && r.ch.cable == Release(w.ch.cable)
    ensures r.ch.grappling ==> r.ch.ropeDestroys == w.ch.ropeDestroys && r.ch.cable == w.ch.cable
    ensures dt >= 0.0 ==> w.ch.elapsed <= r.ch.elapsed
    ensures r.ch.(rotating := w.ch.rotating, elapsed := w.ch.elapsed, lastMove := w.ch.lastMove,
                  grappling := w.ch.grappling, cable := w.ch.cable, ropeDestroys := w.ch.ropeDestroys) == w.ch
    ensures r.points == w.points && r.guides == w.guides
  {
    if !w.ch.grappling then w
    else
      var e := w.ch.elapsed + dt;
      var t := Progress(e, w.ch.totalDuration);
      var moved := w.ch.(rotating := false, elapsed := e, lastMove := Some(Move(LeapLocation(w.ch, env, t), w.ch.rotation)));
      if e >= w.ch.totalDuration then
        w.(ch := moved.(grappling := false, cable := Release(w.ch.cable), ropeDestroys := w.ch.ropeDestroys + 1))
      else w.(ch := moved)
  }

  /** The character's frame: read the actor rotation from the engine (the
      movement component may have turned the character since the last
      frame), then trace, then rotate, then leap. Afterwards the character is
      never both grappling and rotating. An idle frame acquires the target;
      while busy the trace is skipped, so focus and points are untouched. A
      leaping frame advances the clock, a frame never starts a leap, and a
      character still rotating before its notify keeps rotating. */
  function Tick(w: World, env: Env, dt: real): (r: World)
    ensures !(r.ch.grappling && r.ch.rotating)
    ensures r.ch.grappling ==> w.ch.grappling
    ensures !(w.ch.grappling || w.ch.rotating) ==> r.ch.focused == TraceTarget(w, env).Some?
    ensures w.ch.grappling || w.ch.rotating ==> r.ch.focused == w.ch.focused && r.points == w.points
    ensures w.ch.grappling ==> r.ch.elapsed == w.ch.elapsed + dt
    ensures w.ch.grappling ==> (r.ch.grappling <==> w.ch.elapsed + dt < w.ch.totalDuration)
    ensures w.ch.grappling && !r.ch.grappling ==> r.ch.cable == Release(w.ch.cable) && r.ch.ropeDestroys == w.ch.ropeDestroys + 1
    ensures w.ch.grappling ==>
              r.ch.lastMove == Some(Move(LeapLocation(w.ch, env, Progress(w.ch.elapsed + dt, w.ch.totalDuration)), r.ch.rotation))
    ensures r.ch.ropesSpawned == w.ch.ropesSpawned && r.ch.montagePlays == w.ch.montagePlays
    ensures !w.ch.rotating ==> !r.ch.rotating
    ensures !(w.ch.grappling || w.ch.rotating) ==> r == LineTraceGrapplingPoint(w.(ch := w.ch.(rotation := env.rotation)), env).world
    ensures w.ch.grappling || w.ch.rotating ==>
              r.ch.(rotating := w.ch.rotating, grappling := w.ch.grappling, elapsed := w.ch.elapsed, rotation := w.ch.rotation,
                    lastMove := w.ch.lastMove, cable := w.ch.cable, ropeDestroys := w.ch.ropeDestroys) == w.ch
    ensures r.ch.grappling ==> r.ch.cable == w.ch.cable && r.ch.ropeDestroys == w.ch.ropeDestroys
    ensures !w.ch.rotating ==> r.ch.rotation == env.rotation
    ensures w.ch.rotating ==> r.ch.rotation == AlignedRotation(w.ch.(rotation := env.rotation), env, dt)
    ensures w.ch.rotating && !w.ch.grappling ==> r.ch.rotating && r.ch.rotation.pitch == 0.0 && r.ch.rotation.roll == 0.0
    ensures w.ch.rotating && w.ch.grappling ==> !r.ch.rotating && r.ch.rotation.pitch == 0.0 && r.ch.rotation.roll == 0.0
    ensures r.guides == w.guides
  {
    var synced := w.(ch := w.ch.(rotation := env.rotation));
    var traced := LineTraceGrapplingPoint(synced, env).world;
    var rotated := RotateTowardsGrapplingPoint(traced, env, dt);
    Grapple(rotated, env, dt)
  }

  /** Every spawned rope guide advances by one frame of its own: a flying
      guide's clock moves on by `dt` within its travel time and it is placed
      at the matching point of its path. The character and the points are
      unaffected. */
  function TickGuides(w: World, dt: real): (r: World)
    ensures r.ch == w.ch && r.points == w.points && |r.guides| == |w.guides|
    ensures forall i :: 0 <= i < |w.guides| && RG.Valid(w.guides[i]) ==> RG.Valid(r.guides[i])
    ensures forall i :: 0 <= i < |w.guides| && !w.guides[i].flying ==> r.guides[i] == w.guides[i]
    ensures forall i :: 0 <= i < |w.guides| ==> r.guides[i].start == w.guides[i].start && r.guides[i].end == w.guides[i].end
    ensures forall i :: 0 <= i < |w.guides| && w.guides[i].flying ==> (r.guides[i].flying <==> r.guides[i].elapsed < RG.TargetTime)
    ensures forall i :: 0 <= i < |w.guides| && w.guides[i].flying ==>
              && r.guides[i].elapsed == Clamp(w.guides[i].elapsed + dt, 0.0, RG.TargetTime)
              && r.guides[i].position == Lerp(w.guides[i].start, w.guides[i].end, r.guides[i].elapsed / RG.TargetTime)
    ensures forall i :: 0 <= i < |w.guides| && w.guides[i].flying && !r.guides[i].flying ==>
              !r.guides[i].alive && r.guides[i].position == w.guides[i].end
  {
    w.(guides := seq(|w.guides|, i requires 0 <= i < |w.guides| => RG.UpdatePosition(w.guides[i], dt)))
  }
}

=== FILE: grapple_properties.dfy ===
/** Properties of the grapple controller that relate several events: the
    trace's idempotence, the geometry of the start gate's samples, the
    gate-notify-tick cycle, completion of a leap and release of its cable,
    and invariants of whole runs of world events. */
module GrappleProperties {
  import opened Geometry
  import opened Engine
  import opened GrappleController
  import GP = GrapplingPoint
  import RG = RopeGuide

  // ---------------------------------------------------------------------
  // Target acquisition

  /** Tracing twice against an unchanged world gives the same result as
      tracing once: the same point focused, the same leap end. */
  lemma TraceIdempotent(w: World, env: Env)
    ensures var once := LineTraceGrapplingPoint(w, env);
            LineTraceGrapplingPoint(once.world, env) == once
  {
    var once := LineTraceGrapplingPoint(w, env);
    if !(w.ch.grappling || w.ch.rotating) {
      assert TraceTarget(once.world, env) == TraceTarget(w, env);
      if once.found {
        var id := TraceTarget(w, env).value;
        GP.EnableFocusedIdempotent(w.points[id]);
      }
    }
  }

  // ---------------------------------------------------------------------
  // Start gate samples

  /** The arc lift of sample `i`. */
  function Arc(env: Env, i: nat): Vec3 {
    Scale(env.up, env.curve((i as real) / (TestCount as real)) * ArcHeight)
  }

  /** Below its arc lift, sample `i` lies `i` tenths of the distance from
      the start along the direction. */
  lemma SampleBelowArc(start: Vec3, end: Vec3, env: Env, i: nat)
    requires i <= TestCount
    ensures Sub(GateSamples(start, end, env)[i], Arc(env, i))
            == Add(Scale(env.direction(start, end), (i as real) * (env.distance(start, end) / (TestCount as real))), start)
  {
    var dir := env.direction(start, end);
    var off := env.distance(start, end) / (TestCount as real);
    var k := i as real;
    assert GateSamples(start, end, env)[i] == TestLocation(start, dir, off, env.up, env.curve, i);
    assert (dir.x * k) * off == dir.x * (k * off);
    assert (dir.y * k) * off == dir.y * (k * off);
    assert (dir.z * k) * off == dir.z * (k * off);
  }

  /** Sample 0 is the start raised by the curve at 0. */
  lemma FirstSampleAtStart(start: Vec3, end: Vec3, env: Env)
    ensures GateSamples(start, end, env)[0] == Add(start, Scale(env.up, env.curve(0.0) * ArcHeight))
  {
    var dir := env.direction(start, end);
    var off := env.distance(start, end) / (TestCount as real);
    SampleBelowArc(start, end, env, 0);
    assert (0 as real) * off == 0.0;
    assert Scale(dir, 0.0) == Origin;
    assert (0 as real) / (TestCount as real) == 0.0;
  }

  /** Sample `TestCount` is the start moved by the full distance along the
      direction and raised by the curve at 1. */
  lemma LastSampleAtFullDistance(start: Vec3, end: Vec3, env: Env)
    ensures GateSamples(start, end, env)[TestCount]
            == Add(Add(Scale(env.direction(start, end), env.distance(start, end)), start),
                   Scale(env.up, env.curve(1.0) * ArcHeight))
  {
    var d := env.distance(start, end);
    var off := d / (TestCount as real);
    SampleBelowArc(start, end, env, TestCount);
    assert (TestCount as real) * off == d;
    assert (TestCount as real) / (TestCount as real) == 1.0;
  }

  /** Below the arc, consecutive samples are one tenth of the distance apart
      along the direction. */
  lemma GateSampleSpacing(start: Vec3, end: Vec3, env: Env, i: nat)
    requires i < TestCount
    ensures var s := GateSamples(start, end, env);
            Sub(s[i + 1], Arc(env, i + 1))
            == Add(Sub(s[i], Arc(env, i)), Scale(env.direction(start, end), env.distance(start, end) / (TestCount as real)))
  {
    var dir := env.direction(start, end);
    var off := env.distance(start, end) / (TestCount as real);
    var k := i as real;
    SampleBelowArc(start, end, env, i);
    SampleBelowArc(start, end, env, i + 1);
    assert dir.x * ((k + 1.0) * off) == dir.x * (k * off) + dir.x * off;
    assert dir.y * ((k + 1.0) * off) == dir.y * (k * off) + dir.y * off;
    assert dir.z * ((k + 1.0) * off) == dir.z * (k * off) + dir.z * off;
  }

  /** When the engine's direction and distance agree (the unit direction
      scaled by the distance is the vector from start to end), the last
      sample sits exactly above the leap's end. */
  lemma LastSampleAboveEnd(start: Vec3, end: Vec3, env: Env)
    requires Scale(env.direction(start, end), env.distance(start, end)) == Sub(end, start)
    ensures GateSamples(start, end, env)[TestCount] == Add(end, Scale(env.up, env.curve(1.0) * ArcHeight))
  {
    LastSampleAtFullDistance(start, end, env);
  }

  /** A vetoed gate is not a no-op: the start location has been overwritten
      with the current one. */
  lemma VetoStillMeasures(w: World, env: Env)
    requires CanStart(w.ch) && PathBlocked(w, env)
    ensures var r := StartGrappling(w, env);
            !r.ch.rotating && r.ch.ropesSpawned == w.ch.ropesSpawned && r.ch.startLoc == env.location
    ensures env.location != w.ch.startLoc ==> StartGrappling(w, env) != w
  {
  }

  /** A leap of 1000 units at the default speed: a clear gate plans 2/3 s,
      and after the notify a single leap step of 2/3 s ends the leap,
      releases the cable and requests a move to the end raised by the curve
      at 1. */
  lemma LeapScenario(w: World, gateEnv: Env, cueEnv: Env, frameEnv: Env)
    requires CanStart(w.ch) && !PathBlocked(w, gateEnv)
    requires gateEnv.distance(gateEnv.location, w.ch.endLoc) == 1000.0
    ensures var started := StartGrappling(w, gateEnv);
            var leaping := AnimNotifyGrappleLeapStart(started, cueEnv);
            var r := Grapple(leaping, frameEnv, 2.0 / 3.0);
            && started.ch.totalDuration == 2.0 / 3.0
            && started.ch.cable == Attached(500.0)
            && !r.ch.grappling && r.ch.cable == Released(500.0)
            && r.ch.lastMove.value.location == Add(w.ch.endLoc, Scale(frameEnv.up, frameEnv.curve(1.0) * ArcHeight))
  {
    var started := StartGrappling(w, gateEnv);
    var leaping := AnimNotifyGrappleLeapStart(started, cueEnv);
    assert started.ch.totalDuration == 2.0 / 3.0;
    CompletionLandsAtEnd(leaping, frameEnv, 2.0 / 3.0);
  }

  // ---------------------------------------------------------------------
  // Gate, notify, tick

  /** The full start of a leap. A clear gate rotates but does not grapple;
      the notify then raises grappling while rotating is still raised; the
      next frame skips the trace, rotates one last time (rotation runs before
      the leap clears the flag) and leaves the character not rotating. */
  lemma GateNotifyTickCycle(w: World, gateEnv: Env, cueEnv: Env, frameEnv: Env, dt: real)
    requires CanStart(w.ch) && !PathBlocked(w, gateEnv)
    ensures var started := StartGrappling(w, gateEnv);
            var leaping := AnimNotifyGrappleLeapStart(started, cueEnv);
            var after := Tick(leaping, frameEnv, dt);
            && started.ch.rotating && !started.ch.grappling
            && leaping.ch.grappling && leaping.ch.rotating && !leaping.ch.focused
            && !after.ch.rotating && !after.ch.focused
            && after.ch.rotation == AlignedRotation(leaping.ch.(rotation := frameEnv.rotation), frameEnv, dt)
            && after.ch.elapsed == dt
            && after.ch.ropesSpawned == w.ch.ropesSpawned + 1
  {
    var started := StartGrappling(w, gateEnv);
    var leaping := AnimNotifyGrappleLeapStart(started, cueEnv);
    var synced := leaping.(ch := leaping.ch.(rotation := frameEnv.rotation));
    var traced := LineTraceGrapplingPoint(synced, frameEnv).world;
    assert traced == synced;
  }

  /** The notify does not check that a gate succeeded: on a freshly
      constructed character it starts a leap although no rope was ever
      spawned, and when that leap ends there is no attached cable to release. */
  lemma NotifyWithoutGate(points: map<PointId, GP.Point>, rot: Rotator, env: Env, dt: real)
    requires dt >= 0.0
    ensures var leaping := AnimNotifyGrappleLeapStart(Initial(points, rot), env);
            && leaping.ch.grappling && leaping.ch.ropesSpawned == 0 && leaping.ch.cable == NoCable
            && var after := Grapple(leaping, env, dt);
               !after.ch.grappling && after.ch.ropeDestroys == 1 && after.ch.cable == NoCable
  {
    var leaping := AnimNotifyGrappleLeapStart(Initial(points, rot), env);
    assert leaping.ch.totalDuration == 0.0 && leaping.ch.elapsed == 0.0;
  }

  // ---------------------------------------------------------------------
  // The leap

  /** `n` leap frames of length `dt`. */
  function Grapples(w: World, env: Env, dt: real, n: nat): World
    decreases n
  {
    if n == 0 then w else Grapples(Grapple(w, env, dt), env, dt, n - 1)
  }

  lemma {:induction false} IdleGrapplesChangeNothing(w: World, env: Env, dt: real, n: nat)
    requires !w.ch.grappling
    ensures Grapples(w, env, dt, n) == w
    decreases n
  {
    if n > 0 {
      IdleGrapplesChangeNothing(Grapple(w, env, dt), env, dt, n - 1);
    }
  }

  /** A leap frame that reaches the duration lands exactly above the end:
      progress is 1, so the move request is the end raised by the curve at 1. */
  lemma CompletionLandsAtEnd(w: World, env: Env, dt: real)
    requires w.ch.grappling && w.ch.totalDuration >= 0.0 && w.ch.elapsed + dt >= w.ch.totalDuration
    ensures var r := Grapple(w, env, dt);
            && !r.ch.grappling
            && r.ch.lastMove == Some(Move(Add(w.ch.endLoc, Scale(env.up, env.curve(1.0) * ArcHeight)), w.ch.rotation))
  {
    assert Progress(w.ch.elapsed + dt, w.ch.totalDuration) == 1.0;
  }

  /** A leap towards the point the character stands at: the gate plans a
      zero duration, and the first leap frame after the notify ends the
      leap, at the end location, and releases the cable. */
  lemma ZeroDistanceLeapEndsInOneFrame(w: World, gateEnv: Env, cueEnv: Env, frameEnv: Env, dt: real)
    requires CanStart(w.ch) && !PathBlocked(w, gateEnv)
    requires gateEnv.distance(gateEnv.location, w.ch.endLoc) == 0.0
    requires dt >= 0.0
    ensures var leaping := AnimNotifyGrappleLeapStart(StartGrappling(w, gateEnv), cueEnv);
            var r := Grapple(leaping, frameEnv, dt);
            && leaping.ch.totalDuration == 0.0
            && !r.ch.grappling && r.ch.cable.Released?
            && r.ch.lastMove.value.location == Add(w.ch.endLoc, Scale(frameEnv.up, frameEnv.curve(1.0) * ArcHeight))
  {
    var leaping := AnimNotifyGrappleLeapStart(StartGrappling(w, gateEnv), cueEnv);
    CompletionLandsAtEnd(leaping, frameEnv, dt);
  }

  /** With a fixed positive frame time, a leap ends once the frames cover the
      remaining duration; it then has released its cable exactly once. */
  lemma {:induction false} LeapEndsAfter(w: World, env: Env, dt: real, n: nat)
    requires w.ch.grappling && dt > 0.0 && n >= 1
    requires (n as real) * dt >= w.ch.totalDuration - w.ch.elapsed
    ensures var r := Grapples(w, env, dt, n);
            !r.ch.grappling && !r.ch.rotating && r.ch.ropeDestroys == w.ch.ropeDestroys + 1
    decreases n
  {
    var w1 := Grapple(w, env, dt);
    if w1.ch.grappling {
      assert w1.ch.elapsed == w.ch.elapsed + dt;
      assert ((n - 1) as real) * dt == (n as real) * dt - dt;
      assert n - 1 != 0;
      LeapEndsAfter(w1, env, dt, n - 1);
    } else {
      IdleGrapplesChangeNothing(w1, env, dt, n - 1);
    }
  }

  /** However many leap frames run, the cable is released at most once. */
  lemma {:induction false} ReleasedAtMostOnce(w: World, env: Env, dt: real, n: nat)
    ensures Grapples(w, env, dt, n).ch.ropeDestroys <= w.ch.ropeDestroys + 1
    decreases n
  {
    if n > 0 {
      var w1 := Grapple(w, env, dt);
      if w1.ch.grappling {
        ReleasedAtMostOnce(w1, env, dt, n - 1);
      } else {
        IdleGrapplesChangeNothing(w1, env, dt, n - 1);
      }
    }
  }

  /** With non-negative frame times the leap clock never runs backwards. */
  lemma {:induction false} LeapClockMonotone(w: World, env: Env, dt: real, n: nat)
    requires dt >= 0.0
    ensures w.ch.elapsed <= Grapples(w, env, dt, n).ch.elapsed
    decreases n
  {
    if n > 0 {
      LeapClockMonotone(Grapple(w, env, dt), env, dt, n - 1);
    }
  }

  // ---------------------------------------------------------------------
  // Runs of world events

  /** What can happen to the world: a character frame, the grapple input,
      the leap-start animation notify, or a frame of the rope guides. */
  datatype WorldEvent =
    | Frame(env: Env, dt: real)
    | GrappleInput(env: Env)
    | LeapNotify(env: Env)
    | GuideFrame(dt: real)

  function Step(w: World, e: WorldEvent): World {
    match e
    case Frame(env, dt) => Tick(w, env, dt)
    case GrappleInput(env) => StartGrappling(w, env)
    case LeapNotify(env) => AnimNotifyGrappleLeapStart(w, env)
    case GuideFrame(dt) => TickGuides(w, dt)
  }

  function Run(w: World, es: seq<WorldEvent>): World
    decreases |es|
  {
    if |es| == 0 then w else Run(Step(w, es[0]), es[1..])
  }

  /** No event clears a grappling point's focus flag or removes a point:
      focus, once given, is never taken back. */
  lemma {:induction false} PointFocusNeverCleared(w: World, es: seq<WorldEvent>, id: PointId)
    requires id in w.points && w.points[id].focused
    ensures id in Run(w, es).points && Run(w, es).points[id].focused
    decreases |es|
  {
    if |es| > 0 {
      var w1 := Step(w, es[0]);
      assert id in w1.points && w1.points[id].focused;
      PointFocusNeverCleared(w1, es[1..], id);
    }
  }

  predicate AllGuidesValid(w: World) {
    forall i :: 0 <= i < |w.guides| ==> RG.Valid(w.guides[i])
  }

  /** Every rope guide ever spawned keeps its clock within its travel time,
      and none flies after destroying itself. */
  lemma {:induction false} GuidesStayValid(w: World, es: seq<WorldEvent>)
    requires AllGuidesValid(w)
    ensures AllGuidesValid(Run(w, es))
    decreases |es|
  {
    if |es| > 0 {
      var w1 := Step(w, es[0]);
      assert AllGuidesValid(w1) by {
        if es[0].GrappleInput? {
          forall i | 0 <= i < |w1.guides|
            ensures RG.Valid(w1.guides[i])
          {
            if i < |w.guides| {
              assert w1.guides[i] == w1.guides[..|w.guides|][i];
            }
          }
        }
      }
      GuidesStayValid(w1, es[1..]);
    }
  }

  /** Rope spawns and throw-montage plays go hand in hand: every event adds
      to both or to neither. */
  lemma {:induction false} SpawnsMatchMontages(w: World, es: seq<WorldEvent>)
    ensures Run(w, es).ch.ropesSpawned - w.ch.ropesSpawned == Run(w, es).ch.montagePlays - w.ch.montagePlays
    decreases |es|
  {
    if |es| > 0 {
      SpawnsMatchMontages(Step(w, es[0]), es[1..]);
    }
  }
}

=== FILE: grappling_point.dfy ===
/** A grappling point: an anchor placed in the level. Its only behaviour is
    latching its focus flag when the character's trace hits it; its per-frame
    tick does nothing beyond the engine's own. */
module GrapplingPoint {
  import opened Geometry

  datatype Point = Point(location: Vec3, focused: bool)

  /** Things that can happen to a point: a frame tick, or the character
      calling `EnableFocused` on it. */
  datatype Event = Ticked(dt: real) | Focus

  /** A freshly placed point: engine objects start zeroed, so the flag is false. */
  function Spawn(location: Vec3): (p: Point)
    ensures p.location == location && !p.focused
  {
    Point(location, false)
  }

  /** Sets the focus flag and touches nothing else. */
  function EnableFocused(p: Point): (q: Point)
    ensures q.focused
    ensures q.location == p.location
  {
    p.(focused := true)
  }

  function Apply(p: Point, e: Event): Point {
    match e
    case Ticked(_) => p
    case Focus => EnableFocused(p)
  }

  function Run(p: Point, es: seq<Event>): Point
    decreases |es|
  {
    if |es| == 0 then p else Run(Apply(p, es[0]), es[1..])
  }

  lemma EnableFocusedIdempotent(p: Point)
    ensures EnableFocused(EnableFocused(p)) == EnableFocused(p)
  {
  }

  /** Nothing a point does clears its flag: once focused it stays focused,
      and its location never moves. */
  lemma {:induction false} FocusLatches(p: Point, es: seq<Event>)
    ensures p.focused ==> Run(p, es).focused
    ensures Run(p, es).location == p.location
    decreases |es|
  {
    if |es| > 0 {
      FocusLatches(Apply(p, es[0]), es[1..]);
    }
  }

  /** After a run the point is focused exactly when it started focused or
      some event of the run was a `Focus`. */
  lemma {:induction false} FocusedIffFocusEvent(p: Point, es: seq<Event>)
    ensures Run(p, es).focused <==> (p.focused || exists i :: 0 <= i < |es| && es[i].Focus?)
    decreases |es|
  {
    if |es| > 0 {
      FocusedIffFocusEvent(Apply(p, es[0]), es[1..]);
      if exists i :: 0 <= i < |es| && es[i].Focus? {
        var i :| 0 <= i < |es| && es[i].Focus?;
        if i > 0 {
          assert es[1..][i - 1].Focus?;
        }
      }
      if exists j :: 0 <= j < |es[1..]| && es[1..][j].Focus? {
        var j :| 0 <= j < |es[1..]| && es[1..][j].Focus?;
        assert es[j + 1].Focus?;
      }
    }
  }
}

=== FILE: rope_guide.dfy ===
/** The rope guide: a short-lived actor that carries the free end of the
    thrown rope in a straight line from the character to the grappling point
    over a fixed time, then destroys itself. */
module RopeGuide {
  import opened Geometry

  /** Travel time of every guide, in seconds; set by the constructor and
      never reassigned. */
  const TargetTime: real := 0.5

  /** `alive` is false once the actor has requested its own destruction. */
  datatype Guide = Guide(position: Vec3, start: Vec3, end: Vec3, elapsed: real, flying: bool, alive: bool)

  /** Elapsed time stays within the travel time, a flying guide has not yet
      arrived, and a destroyed guide no longer flies. */
  predicate Valid(g: Guide) {
    && 0.0 <= g.elapsed <= TargetTime
    && (g.flying ==> g.elapsed < TargetTime && g.alive)
  }

  /** A guide spawned at `at`: elapsed 0, not flying. */
  function Spawn(at: Vec3): (g: Guide)
    ensures g.position == at && g.elapsed == 0.0 && !g.flying && g.alive
    ensures Valid(g)
  {
    Guide(at, Origin, Origin, 0.0, false, true)
  }

  /** Records both endpoints, starts flying and restarts the clock; the
      guide stays where it is until its next update. */
  function SetTarget(g: Guide, start: Vec3, end: Vec3): (h: Guide)
    ensures h.start == start && h.end == end
    ensures h.flying && h.elapsed == 0.0
    ensures h.position == g.position && h.alive == g.alive
    ensures g.alive ==> Valid(h)
  {
    g.(start := start, end := end, flying := true, elapsed := 0.0)
  }

  /** One frame of travel: the clock advances by `dt` clamped to
      `[0, TargetTime]`, the guide is placed at the matching fraction of the
      path, and on arrival it stops flying and destroys itself. A guide that
      is not flying is left exactly as it is. */
  function UpdatePosition(g: Guide, dt: real): (h: Guide)
    ensures !g.flying ==> h == g
    ensures h.start == g.start && h.end == g.end
    ensures g.flying ==> h.elapsed == Clamp(g.elapsed + dt, 0.0, TargetTime)
    ensures g.flying ==> 0.0 <= h.elapsed <= TargetTime
    ensures g.flying ==> 0.0 <= h.elapsed / TargetTime <= 1.0
    ensures g.flying ==> h.position == Lerp(g.start, g.end, h.elapsed / TargetTime)
    ensures g.flying ==> (h.flying <==> h.elapsed < TargetTime)
    ensures g.flying && !h.flying ==> !h.alive && h.position == g.end
    ensures g.flying && h.flying ==> h.alive == g.alive
    ensures Valid(g) ==> Valid(h)
    ensures Valid(g) && dt >= 0.0 ==> g.elapsed <= h.elapsed
  {
    if !g.flying then g
    else
      var e := Clamp(g.elapsed + dt, 0.0, TargetTime);
      var moved := g.(elapsed := e, position := Lerp(g.start, g.end, e / TargetTime));
      if e >= TargetTime then moved.(flying := false, alive := false) else moved
  }

  /** `n` successive frames of length `dt`. */
  function Updates(g: Guide, dt: real, n: nat): Guide
    decreases n
  {
    if n == 0 then g else Updates(UpdatePosition(g, dt), dt, n - 1)
  }

  /** Once a guide has stopped, further frames change nothing. */
  lemma {:induction false} StoppedStaysStopped(g: Guide, dt: real, n: nat)
    requires !g.flying
    ensures Updates(g, dt, n) == g
    decreases n
  {
    if n > 0 {
      StoppedStaysStopped(UpdatePosition(g, dt), dt, n - 1);
    }
  }

  /** With a fixed positive frame time, a flying guide has arrived at its end,
      stopped and destroyed itself once the frames cover the remaining time. */
  lemma {:induction false} ArrivesAfter(g: Guide, dt: real, n: nat)
    requires Valid(g) && g.flying && dt > 0.0
    requires (n as real) * dt >= TargetTime - g.elapsed
    ensures var h := Updates(g, dt, n); !h.flying && !h.alive && h.position == g.end && h.elapsed == TargetTime
    decreases n
  {
    assert n != 0;
    var g1 := UpdatePosition(g, dt);
    if g1.flying {
      assert g1.elapsed == g.elapsed + dt;
      assert ((n - 1) as real) * dt == (n as real) * dt - dt;
      ArrivesAfter(g1, dt, n - 1);
    } else {
      StoppedStaysStopped(g1, dt, n - 1);
    }
  }

  /** With a fixed positive frame time, every flying guide arrives after
      finitely many frames. */
  lemma EventuallyArrives(g: Guide, dt: real)
    requires Valid(g) && g.flying && dt > 0.0
    ensures exists n: nat :: !Updates(g, dt, n).flying && Updates(g, dt, n).position == g.end
  {
    var q := (TargetTime - g.elapsed) / dt;
    assert q > 0.0;
    var n: nat := q.Floor + 1;
    assert (n as real) > q;
    assert (n as real) * dt > q * dt;
    assert q * dt == TargetTime - g.elapsed;
    ArrivesAfter(g, dt, n);
  }
}
